=== FILE: README.md ===
# Chat client core: a Dafny model

This project models the logic of a browser chat client whose bot replies come
from an external workflow started by a webhook. The client never receives the
reply directly. It polls the message table until the reply row appears.

Each piece is a pure transition function over an event datatype. Every remote
call is an outcome carried by an event or passed as an argument. Remote calls
here are database queries and inserts, function invocations and webhook
fetches. Most outcomes have the type `Wrappers.Result`: `Ok(data)` or
`Err(message)`. Some calls have an outcome type of their own:

- the success flag of a `send-message` invocation;
- the auth result of the login screen;
- the webhook replies of the two edge functions.

- `MessageView` is the conversation view of one chat. It covers the optimistic
  send, the exact rollback to the captured snapshot, the one-send-per-wait
  guard and the poll acceptance rule. Its state also records one rollback
  snapshot per `send-message` call still pending.
- `ChatLayout` is the chat list. It covers fetch-and-replace,
  create-then-append-and-select, click-to-select and the loading/pane choice.
  Its state records, for every create still pending, the list that click
  captured.
- `Clarification` is the side thread about one bot message. It covers both the
  modal and the drawer, which differ only in what opening resets.
- `SendMessage` and `SummarizeChat` are the two edge functions, written as
  decision functions. Each returns the response and the ordered list of side
  effects it performed.
- `Onboarding` is the tutorial step counter. `AnimatedLogin` is the subtitle
  rotation and the loading flag. `App` is the theme and the session-gated view.
- `JsText` holds the JavaScript string semantics the code relies on.
  `String.prototype.trim` is modelled with the exact ECMA-262 whitespace set
  (sections 12.2 and 12.3). It also holds the truthiness of a possibly-missing
  string, and `join`/`split` on `'\n'`.

Some events cannot happen in the UI and change nothing in the model: a submit
while the loading view is shown, typing into a disabled box, a click on a list
that is not rendered.

Three points where the code is easy to misread:

- The poll compares the polled length with the current local length, which
  already includes the optimistic message. It does not compare with n0, the
  number of messages before the send. So n0 + 1 rows ending in a bot row do not end the wait; the
  real reply shows up as n0 + 2 rows (`PollOfOneMoreRowIsIgnored`).
- The chat query has no ordering, and a new chat is appended, not prepended.
  There is no client-side delete and no delayed title re-fetch.
- There is no polling timeout.

The model also shows three behaviours of the code as written.

- A poll can end the wait before the `send-message` call resolves. Once that
  happens a second send can start, so `inFlight` may hold more than one
  snapshot.
- A send failure restores its snapshot even after a poll has accepted the
  reply. The accepted reply is then dropped from view
  (`LateSendFailureDiscardsAcceptedReply`).
- The "+ New Chat" button is never disabled, and each create appends to the
  list its click captured. Two overlapping creates that both succeed leave
  only the second new chat in the list, though both exist in the table
  (`OverlappingCreatesLoseFirst`).

## Model

| member | source | states |
|---|---|---|
| `JsText.BlankIffAllWhitespace` | src/components/MessageView.tsx:83 | The blank guard `!s.trim()` holds exactly when every character is ECMAScript whitespace. |
| `JsText.TrimStart` | src/components/MessageView.tsx:83 | The result is a suffix of the input. Everything dropped is whitespace, and the result does not start with whitespace. |
| `JsText.TrimEnd` | src/components/MessageView.tsx:83 | The result is a prefix of the input. Everything dropped is whitespace, and the result does not end with whitespace. |
| `JsText.SplitJoinRoundTrip` | supabase/functions/summarize-chat/index.ts:29 | Splitting on `'\n'` inverts joining with `'\n'`, for one or more lines that contain no line feed. |
| `JsText.JoinLinesSeparatorCount` | supabase/functions/summarize-chat/index.ts:29 | Joining n >= 1 lines without line feeds inserts exactly n - 1 of them. |
| `MessageView.Mount` | src/components/MessageView.tsx:12-29 | A freshly mounted view has no messages, an empty input, loading on, no typing flag and no pending send. |
| `MessageView.OnChatChanged` | src/components/MessageView.tsx:26-47 | A real chat change empties the list, turns loading on and clears the typing flag. It keeps the input and the pending sends. The same id changes nothing. |
| `MessageView.OnFetchDone` | src/components/MessageView.tsx:31-44 | Loading ends either way. On success the list becomes the fetched rows; on error it stays as it was. |
| `MessageView.OnEdit` | src/components/MessageView.tsx:158-165 | Typing changes the input only when the form is shown and the box is enabled. |
| `MessageView.HandleSubmit` | src/components/MessageView.tsx:81-97 | If the input is all whitespace or a reply is awaited, nothing changes. Otherwise exactly one message is appended: sender `user`, the raw untrimmed input as content. Earlier messages are unchanged, the input is cleared, the typing flag goes up and the pre-send list is recorded as the rollback snapshot. |
| `MessageView.OnSendDone` | src/components/MessageView.tsx:99-115 | Either way exactly that call's snapshot leaves the pending list, the others keeping their order. Success changes nothing else. Failure sets the list to that call's own snapshot and drops the typing flag. The cleared input is not restored. |
| `MessageView.OnPollTick` | src/components/MessageView.tsx:50-79 | The state changes only if a reply is awaited, the poll succeeded, the polled list is longer than the current local list and its last row is a bot row. It then becomes the list wholesale and the wait ends. |
| `MessageView.View` | src/components/MessageView.tsx:118-153 | The loading view is shown exactly while loading. Otherwise the list is shown, and the typing indicator and the disabled input match the typing flag. |
| `MessageView.RunPreservesInv` | src/components/MessageView.tsx:81-116 | After any sequence of events, an awaited reply implies the conversation is shown and the input is empty. |
| `MessageView.SubmitWhileReplyingIsNoOp` | src/components/MessageView.tsx:83 | A submit while a reply is awaited is a no-op. |
| `MessageView.SendFailureRollsBack` | src/components/MessageView.tsx:85-114 | An accepted submit followed by its own failure gives back exactly the previous list. The typing flag is down, the input is empty and the pending sends are as before. |
| `MessageView.LateSendFailureDiscardsAcceptedReply` | src/components/MessageView.tsx:67-113 | A failure after an accepted poll still restores the pre-send snapshot, dropping the reply from view. |
| `MessageView.PollOfOneMoreRowIsIgnored` | src/components/MessageView.tsx:67 | After a submit from n0 messages, a polled list of n0 + 1 rows leaves the state unchanged, whatever its last sender. |
| `MessageView.PollWithReplyEndsWait` | src/components/MessageView.tsx:67-69 | After a submit from n0 messages, n0 + 2 rows ending in a bot row become the list verbatim and end the wait. |
| `MessageView.PollErrorOrIdleIsNoOp` | src/components/MessageView.tsx:51-64 | A poll error, or any poll while no reply is awaited, changes nothing. |
| `MessageView.ChatChangeCancelsPolling` | src/components/MessageView.tsx:26-79 | After switching chats no reply is awaited, so no poll fired after the switch changes the state. |
| `MessageView.ConversationExample` | src/components/MessageView.tsx:67-97 | Two stored messages plus "Hello" gives three entries ending in the user's message. A poll of three rows is ignored; a poll of four rows ending in the bot's "Hi there" ends the wait. |
| `ChatLayout.Init` | src/components/ChatLayout.tsx:14-16 | Initially there are no chats, no selection, no pending create, and loading is on. |
| `ChatLayout.OnChatsFetched` | src/components/ChatLayout.tsx:22-30 | Success replaces the list wholesale and failure keeps it. Loading ends either way and the selection is untouched. |
| `ChatLayout.OnCreateClicked` | src/components/ChatLayout.tsx:32-35 | A click outside the loading view starts a create that captures the current list; the list and the selection do not change. While loading there is no button and nothing changes. |
| `ChatLayout.OnChatCreated` | src/components/ChatLayout.tsx:32-44 | Success sets the list to the list that call's click captured with the new chat at its end, and selects the new id. Failure keeps the list and the selection. Either way that create is no longer pending. |
| `ChatLayout.OnChatClicked` | src/components/ChatLayout.tsx:65 | Clicking entry i selects that chat's id and changes nothing else: the list, loading and the pending creates stay as they were. |
| `ChatLayout.View` | src/components/ChatLayout.tsx:50-88 | While loading only the loading view is shown. After that the conversation pane shows the selected id when it is truthy, and the placeholder shows otherwise. |
| `ChatLayout.LoadingNeverReturns` | src/components/ChatLayout.tsx:16-30 | Once loading has ended, no event turns it on again. |
| `ChatLayout.RunPreservesInv` | src/components/ChatLayout.tsx:16-57 | After any sequence of events, no create is pending while the loading view is shown. |
| `ChatLayout.CreateShowsNewChat` | src/components/ChatLayout.tsx:32-42 | A click followed directly by its successful create shows the old list plus the new chat, with the pane showing the new chat. |
| `ChatLayout.OverlappingCreatesLoseFirst` | src/components/ChatLayout.tsx:32-57 | Two clicks before either insert resolves, both succeeding in order: the first chat is appended, then replaced by the second, and is missing from the final list. |
| `ChatLayout.FailuresKeepSelection` | src/components/ChatLayout.tsx:23-39 | After loading has ended, a failed refresh or create leaves the rendered screen unchanged. |
| `Clarification.Mount` | src/components/ClarificationModal.tsx:19-21 | A new thread is empty, with an empty input and no pending question. |
| `Clarification.OnOpenChanged` | src/components/ClarificationModal.tsx:30-35 | Opening empties the thread. The modal also clears the input; the drawer keeps it. Closing changes only visibility. |
| `Clarification.OnEdit` | src/components/ClarificationModal.tsx:98 | Typing changes the input only while the panel is open and not loading. |
| `Clarification.HandleSubmit` | src/components/ClarificationModal.tsx:37-45 | If the input is all whitespace or a question is pending, nothing changes. Otherwise the raw question is appended as a `user` entry, the input is cleared and loading goes up. |
| `Clarification.BotContent` | src/components/ClarificationModal.tsx:55-61 | The bot text is the reply on success and the fixed fallback on failure. |
| `Clarification.OnReplyDone` | src/components/ClarificationModal.tsx:47-63 | Exactly one `bot` entry is appended after the unchanged earlier entries, holding the reply or the fallback. Loading is down in both branches. |
| `Clarification.Render` | src/components/ClarificationModal.tsx:66-68 | Nothing is rendered when closed. When open, the thread and the loading indicator are shown. |
| `Clarification.SubmitWhileLoadingIsNoOp` | src/components/ClarificationDrawer.tsx:31 | A submit while a question is pending is a no-op. |
| `Clarification.ExchangeAppendsTwo` | src/components/ClarificationDrawer.tsx:29-57 | In either variant, a submit and its reply grow the thread by exactly two entries: the user question, then one bot entry. Earlier entries are untouched, loading is down and the input is empty. |
| `Clarification.EditThenSubmitAsksTyped` | src/components/ClarificationModal.tsx:37-98 | In an open, idle panel, the typed text is exactly what a submit asks: a blank text leaves the thread alone, any other becomes the new `user` entry verbatim and raises loading. |
| `Clarification.ReopenResets` | src/components/ClarificationDrawer.tsx:22-27 | Re-opening empties the thread in both variants. It clears the input in the modal only. |
| `Clarification.ReplyAfterReopenLandsInFreshThread` | src/components/ClarificationModal.tsx:30-63 | A reply that arrives after a close and re-open is appended to the new, empty thread. |
| `SendMessage.Handle` | supabase/functions/send-message/index.ts:6-67 | The status is always 200 or 400, at most four effects happen, and the plain 'ok' response is given exactly for OPTIONS. |
| `SendMessage.PreflightHasNoEffects` | supabase/functions/send-message/index.ts:8-10 | OPTIONS answers 'ok' with no auth, database or webhook effect. |
| `SendMessage.NoUserNoWrites` | supabase/functions/send-message/index.ts:22-23 | A missing user gives 400 with no insert and no webhook call. |
| `SendMessage.BodyValidation` | supabase/functions/send-message/index.ts:26-34 | A missing or empty `chat_id` or `message` gives 400 with no insert. Any other pair reaches the insert unchanged. |
| `SendMessage.BlankMessageIsInserted` | supabase/functions/send-message/index.ts:27-34 | The validation does not trim: a one-space message is inserted. |
| `SendMessage.InsertBeforeWebhook` | supabase/functions/send-message/index.ts:32-45 | The webhook call always comes right after the insert, and only when the insert succeeded. |
| `SendMessage.WebhookFailureAfterInsert` | supabase/functions/send-message/index.ts:32-51 | A non-ok webhook gives 400 although the user row was already inserted. Nothing undoes the insert. |
| `SendMessage.SuccessCharacterised` | supabase/functions/send-message/index.ts:39-59 | A non-OPTIONS request gets 200 exactly when every check, the insert and the webhook succeed. The body is then the webhook's JSON, and the webhook received `chat_id`, `message` and `chat_title` unchanged. |
| `SummarizeChat.Transcript` | supabase/functions/summarize-chat/index.ts:29 | No messages give the empty transcript. One message gives its single `sender: content` line. |
| `SummarizeChat.TranscriptSplitsIntoLines` | supabase/functions/summarize-chat/index.ts:21-29 | When no content has a line feed, splitting the transcript gives one `sender: content` line per row, in the fetched order. |
| `SummarizeChat.TranscriptSeparatorCount` | supabase/functions/summarize-chat/index.ts:29 | For n >= 1 messages without line feeds, the transcript holds exactly n - 1 separators. |
| `SummarizeChat.Handle` | supabase/functions/summarize-chat/index.ts:5-65 | The status is always 200 or 500. OPTIONS, and only OPTIONS, answers 'ok', with no effects. |
| `SummarizeChat.MissingChatIdBeforeRead` | supabase/functions/summarize-chat/index.ts:10-14 | A missing `chat_id` gives 500 before any database read. |
| `SummarizeChat.MissingUrlAfterRead` | supabase/functions/summarize-chat/index.ts:21-34 | A missing webhook address gives 500. It is noticed only after the read, and the webhook is not called. |
| `SummarizeChat.WebhookGetsTranscript` | supabase/functions/summarize-chat/index.ts:11-45 | Whatever the webhook answers, the effects are exactly these, in order: the body read, the read of that chat's messages, and the post of those rows' transcript to the configured address. A non-ok answer gives 500 with its error text appended to the fixed prefix. |
| `SummarizeChat.SuccessCharacterised` | supabase/functions/summarize-chat/index.ts:47-52 | A non-OPTIONS request gets 200 exactly when every step succeeds, and only the `summary` field is returned. |
| `Onboarding.HandleNext` | src/components/OnboardingModal.tsx:26-32 | Next increments the step below the last page and never passes it. On the last page it asks to close and keeps the step. |
| `Onboarding.Skip` | src/components/OnboardingModal.tsx:44 | Skip asks to close at every step. |
| `Onboarding.NextLabel` | src/components/OnboardingModal.tsx:46 | The label is 'Finish' exactly on the last page, and 'Next' before it. |
| `Onboarding.Page` | src/components/OnboardingModal.tsx:38-41 | An in-range step shows one of the tutorial pages. |
| `Onboarding.PressNextFromStart` | src/components/OnboardingModal.tsx:24-38 | Any number of Next presses from a valid step leaves the step at the start plus the presses, capped at the last page. So the page lookup is always in range. |
| `Onboarding.TutorialWalk` | src/components/OnboardingModal.tsx:8-46 | The first page says 'Next'. Two presses reach the last page, which says 'Finish'. The third press asks to close. |
| `AnimatedLogin.IndexOf` | src/components/AnimatedLogin.tsx:25 | `indexOf` returns the first position of the value, or -1 exactly when the value is absent. |
| `AnimatedLogin.Rotate` | src/components/AnimatedLogin.tsx:24-27 | One rotation step always yields a member of the list. |
| `AnimatedLogin.RotateNAdvances` | src/components/AnimatedLogin.tsx:22-31 | In a list without repeats, n steps move element i to element (i + n) mod the list length. |
| `AnimatedLogin.TickAdvances` | src/components/AnimatedLogin.tsx:24-27 | Each tick moves snippet i to snippet (i + 1) mod 6. |
| `AnimatedLogin.TickFromStrangerGoesToFirst` | src/components/AnimatedLogin.tsx:25-27 | A subtitle not in the list moves to snippet 0, because its index is -1. |
| `AnimatedLogin.SixTicksCycle` | src/components/AnimatedLogin.tsx:24-27 | Six ticks return every snippet to itself. |
| `AnimatedLogin.TicksFromInitial` | src/components/AnimatedLogin.tsx:20-31 | After n ticks from the initial subtitle, the subtitle is snippet n mod 6, so it is always one of the snippets. |
| `AnimatedLogin.Press` | src/components/AnimatedLogin.tsx:37-39 | A press while loading does nothing, because the buttons are disabled. Otherwise loading goes up and the action is pending. |
| `AnimatedLogin.LoadingTracksPending` | src/components/AnimatedLogin.tsx:37-51 | If loading is up exactly while an auth call is awaited, that still holds after a press and after a completion. |
| `AnimatedLogin.Complete` | src/components/AnimatedLogin.tsx:40-51 | Loading is false whatever the outcome. An error is alerted, a sign-up success is announced, and a sign-in success is silent. |
| `App.InitialTheme` | src/App.tsx:11 | The theme is the stored value when it is non-empty, and 'light' otherwise. It is never empty. |
| `App.ToggleTheme` | src/App.tsx:29-31 | 'light' becomes 'dark', and every other value becomes 'light'. |
| `App.ToggleInvolution` | src/App.tsx:30 | On {light, dark}, toggling twice is the identity, and toggling once changes the theme. |
| `App.RemoveClasses` | src/App.tsx:14 | A class is kept exactly when it was present and is not one of the removed tokens. A repeat-free token list stays repeat-free. |
| `App.ApplyTheme` | src/App.tsx:14-15 | The current theme is present, and 'light' and 'dark' are both gone unless one is the theme, for any theme string. Every unrelated class is present exactly when it was before, and the token list stays repeat-free. |
| `App.ApplyThemeKeepsOtherClasses` | src/App.tsx:14-15 | On the body's token set, unrelated classes keep their relative order. |
| `App.ThemeSurvivesReload` | src/App.tsx:11-16 | A theme written back to storage is read again unchanged on reload, and so is its toggle. |
| `App.View` | src/App.tsx:34-45 | With no session only the login screen is shown. With a session the chat layout is shown, keyed by the user id. |

## Left out

- Remote I/O is not modelled. This covers the database client, `functions.invoke`, webhook `fetch`, `localStorage` and the auth provider. Each becomes an outcome value; their own behaviour is not part of this model. Of the `Deno.env` values, only the summary webhook address is an input; the others are covered below.
- Timers and React scheduling are not modelled. `setInterval`, `clearInterval`, effect re-scheduling and the 2-second periods become discrete `PollTick` and tick events, with no real time and no concurrency.
- Identifiers and timestamps are opaque parameters. This covers `crypto.randomUUID`, `Date.now` and `new Date().toISOString()`, which are nondeterministic.
- JSX markup, styles, scroll-to-bottom, `Draggable` and the particle background are left out. They are presentation only.
- `MessageView.OnPollTick` treats each poll as one atomic event: the query and the acceptance test happen together. In the code a poll already waiting on its query when the interval is cleared still resolves afterwards. It then compares with its stale `messages.length` and can replace the list and drop the typing flag after a chat switch or a send failure. The model does not promise anything about such a late poll.
- `MessageView.OnSendDone` does not model the `alert` shown on a send failure. It changes no state. The `console.error` and `console.log` calls throughout are not modelled either.
- `MessageView.OnFetchDone` does not model which chat a fetch belonged to. A stale fetch for an earlier chat id resolving late is just another `FetchDone` event.
- `SendMessage.Handle` does not model JSON values other than strings or absent fields. A numeric `chat_id` or a `null` body are left out; truthiness is modelled for strings only.
- `SummarizeChat.Handle` has the same limit for its destructured and truth-tested `chat_id`: a numeric `chat_id` or a `null` body are left out.
- `SendMessage.Handle` and `SummarizeChat.Handle` represent a webhook `fetch` that throws (a network failure) by `WebhookBadJson` and `SummaryBadJson`, like a reply whose JSON does not parse. Both are thrown errors that end in the error response.
- `SendMessage.Handle` does not model missing environment values. `SUPABASE_URL` and `SUPABASE_ANON_KEY` are read with a non-null assertion, so `createClient` throws before any effect. A missing `N8N_WEBHOOK_URL` makes `fetch` throw after the insert. Both end in the 400 response.
- `SummarizeChat.Handle` takes only the webhook address as an input. A missing `SUPABASE_URL` or `SERVICE_ROLE_KEY` makes `createClient` throw before the read, which is not modelled.
- `SummarizeChat.Handle` does not model the error `stack` field of the 500 body. It is runtime-dependent text.
- `Clarification.BotContent` does not model a success reply without a `reply` field. The code would append `undefined` content.
- `App.ApplyThemeKeepsOtherClasses` is stated for the body's token set, which has no repeats. Parsing the `class` attribute into that set, which drops repeated tokens, is not modelled.
- `App.ApplyTheme` does not model the exception `classList.add` raises for a stored theme containing whitespace. The stored value is not validated, and the DOM's tokenizer is not modelled.
- The sign-out button and the `theme`/`toggleTheme` props passed to the chat layout are left out. They only forward to auth or to presentation.
- The hand-off of the selected chat id from the chat list to the conversation view is not modelled as one combined machine. `MessageView.OnChatChanged` receives the new id as an event.
- `Auth.tsx`, `main.tsx`, and the `delete-chat` and `clarify-message` functions are left out. They are a thin auth wrapper, bootstrapping, and pass-through handlers.

=== FILE: animated_login.dfy ===
/** The login screen's two pieces of logic: the subtitle that cycles through
    six code snippets on every timer tick, and the `loading` flag raised
    around a sign-in or sign-up call. Each tick is a discrete event. */
module AnimatedLogin {
  import opened Wrappers

  const CodeSnippets: seq<string> := [
    "await chatbot.getResponse()",
    "Initializing AI Assistant...",
    "Compiling neural network...",
    "supabase.auth.signIn()",
    "n8n.workflow.trigger()",
    "SELECT * FROM conversations;"
  ]

  /** `xs.indexOf(x)`: the first index holding `x`, or -1. */
  function IndexOf(xs: seq<string>, x: string): (i: int)
    ensures -1 <= i < |xs|
    ensures i == -1 <==> x !in xs
    ensures i >= 0 ==> xs[i] == x && forall j :: 0 <= j < i ==> xs[j] != x
    decreases |xs|
  {
    if |xs| == 0 then -1
    else if xs[0] == x then 0
    else
      var i := IndexOf(xs[1..], x);
      if i == -1 then -1 else i + 1
  }

  /** The initial subtitle, `codeSnippets[0]`. */
  const InitialSubtitle: string := CodeSnippets[0]

  /** One step of the rotation through a non-empty list `xs`: the element after
      the current one, wrapping around. A value not in the list has index -1
      and so moves to the first element. The dividend is never negative, so
      JavaScript's `%` agrees with Dafny's. */
  function Rotate(xs: seq<string>, prev: string): (next: string)
    requires |xs| > 0
    ensures next in xs
  {
    xs[(IndexOf(xs, prev) + 1) % |xs|]
  }

  /** `n` steps of the rotation. */
  function RotateN(xs: seq<string>, prev: string, n: nat): (r: string)
    requires |xs| > 0
    decreases n
  {
    if n == 0 then prev else RotateN(xs, Rotate(xs, prev), n - 1)
  }

  /** In a list without repeats a step moves element i to element i + 1,
      wrapping around. */
  lemma RotateAdvances(xs: seq<string>, i: nat)
    requires NoRepeats(xs) && i < |xs|
    ensures Rotate(xs, xs[i]) == xs[if i + 1 == |xs| then 0 else i + 1]
  {
    var j := IndexOf(xs, xs[i]);
    assert j == i by {
      assert xs[j] == xs[i];
    }
    if i + 1 == |xs| {
      assert (i + 1) % |xs| == 0;
    } else {
      assert (i + 1) % |xs| == i + 1;
    }
  }

  /** `k mod m` by repeated subtraction, which avoids reasoning about `%`
      with a variable modulus. */
  function Wrap(k: nat, m: nat): (r: nat)
    requires m > 0
    ensures r < m
    decreases k
  {
    if k < m then k else Wrap(k - m, m)
  }

  /** With the constant modulus 6 of the snippet list, `Wrap` is `%`. */
  lemma {:induction false} WrapSixIsMod(k: nat)
    ensures Wrap(k, 6) == k % 6
    decreases k
  {
    if k >= 6 {
      WrapSixIsMod(k - 6);
    }
  }

  /** In a list without repeats, n steps move element i to element
      (i + n) mod |xs|. */
  lemma {:induction false} RotateNAdvances(xs: seq<string>, i: nat, n: nat)
    requires NoRepeats(xs) && i < |xs|
    ensures RotateN(xs, xs[i], n) == xs[Wrap(i + n, |xs|)]
    decreases n
  {
    if n > 0 {
      var j := if i + 1 == |xs| then 0 else i + 1;
      RotateAdvances(xs, i);
      RotateNAdvances(xs, j, n - 1);
      if i + 1 == |xs| {
        assert Wrap(i + n, |xs|) == Wrap(n - 1, |xs|);
      }
    }
  }

  lemma SnippetsHaveNoRepeats()
    ensures NoRepeats(CodeSnippets)
  {
  }

  /** One tick of the login subtitle. */
  function NextSubtitle(prev: string): (next: string)
    ensures next in CodeSnippets
  {
    Rotate(CodeSnippets, prev)
  }

  /** A tick moves snippet i to snippet (i + 1) mod 6. */
  lemma TickAdvances(i: nat)
    requires i < |CodeSnippets|
    ensures NextSubtitle(CodeSnippets[i]) == CodeSnippets[(i + 1) % 6]
  {
    SnippetsHaveNoRepeats();
    RotateAdvances(CodeSnippets, i);
  }

  /** A subtitle outside the list moves to the first snippet. */
  lemma TickFromStrangerGoesToFirst(x: string)
    requires x !in CodeSnippets
    ensures NextSubtitle(x) == CodeSnippets[0]
  {
  }

  /** Six ticks bring every snippet back to itself. */
  lemma SixTicksCycle(i: nat)
    requires i < |CodeSnippets|
    ensures RotateN(CodeSnippets, CodeSnippets[i], 6) == CodeSnippets[i]
  {
    SnippetsHaveNoRepeats();
    RotateNAdvances(CodeSnippets, i, 6);
    WrapSixIsMod(i + 6);
    assert (i + 6) % 6 == i;
  }

  /** After n ticks from the initial subtitle the subtitle is snippet n mod 6. */
  lemma TicksFromInitial(n: nat)
    ensures RotateN(CodeSnippets, InitialSubtitle, n) == CodeSnippets[n % 6]
  {
    SnippetsHaveNoRepeats();
    RotateNAdvances(CodeSnippets, 0, n);
    WrapSixIsMod(n);
  }

  datatype Action = SignIn | SignUp

  /** The auth call's outcome: no error, or an error with its message. */
  datatype AuthResult = AuthOk | AuthError(message: string)

  /** `pending` is the action whose auth call is awaited. */
  datatype LoginState = LoginState(loading: bool, pending: Option<Action>)

  /** A press of Sign In or Sign Up. Both buttons are disabled while loading,
      so a press then does nothing; otherwise loading is raised and the call
      starts. */
  function Press(s: LoginState, a: Action): (s': LoginState)
    ensures s.loading ==> s' == s
    ensures !s.loading ==> s'.loading && s'.pending == Some(a)
  {
    if s.loading then s else LoginState(true, Some(a))
  }

  /** What a completed call shows and does. */
  datatype Completion = Completion(state: LoginState, alert: Option<string>)

  const SignupSuccess: string := "Signup successful! Please check your email to verify."

  /** The awaited call completes: an error is alerted, a successful sign-up is
      announced, a successful sign-in is silent, and loading is false after
      every outcome. */
  function Complete(s: LoginState, r: AuthResult): (c: Completion)
    ensures s.pending.Some? ==> !c.state.loading && c.state.pending.None?
    ensures s.pending.None? ==> c == Completion(s, None)
    ensures s.pending.Some? && r.AuthError? ==> c.alert == Some(r.message)
    ensures s.pending == Some(SignUp) && r.AuthOk? ==> c.alert == Some(SignupSuccess)
    ensures s.pending == Some(SignIn) && r.AuthOk? ==> c.alert.None?
  {
    match s.pending
    case None => Completion(s, None)
    case Some(a) =>
      var alert := match r
        case AuthError(m) => Some(m)
        case AuthOk => if a == SignUp then Some(SignupSuccess) else None;
      Completion(LoginState(false, None), alert)
  }

  /** Loading is up exactly while a call is awaited, from the initial state on. */
  lemma LoadingTracksPending(s: LoginState, a: Action, r: AuthResult)
    requires s.loading <==> s.pending.Some?
    ensures var s1 := Press(s, a); s1.loading <==> s1.pending.Some?
    ensures var c := Complete(s, r); c.state.loading <==> c.state.pending.Some?
  {
  }
}

=== FILE: app.dfy ===
/** The root component: the theme (read from storage, toggled, applied to the
    body's class list and written back) and the session-gated choice between
    the login screen and the chat layout. Storage and the DOM are passed in
    and returned as values. */
module App {
  import opened Wrappers

  /** The initial theme: the stored value when it is a non-empty string,
      otherwise 'light'. The stored value is not checked against the two
      themes. */
  function InitialTheme(stored: Option<string>): (t: string)
    ensures t != ""
    ensures stored.Some? && stored.value != "" ==> t == stored.value
    ensures stored.None? || stored.value == "" ==> t == "light"
  {
    match stored
    case Some(v) => if v != "" then v else "light"
    case None => "light"
  }

  /** `toggleTheme`: 'light' becomes 'dark', and EVERY other value becomes
      'light'. */
  function ToggleTheme(t: string): (r: string)
    ensures r == "light" || r == "dark"
    ensures r == "dark" <==> t == "light"
  {
    if t == "light" then "dark" else "light"
  }

  /** On the two themes the toggle is an involution. */
  lemma ToggleInvolution(t: string)
    requires t == "light" || t == "dark"
    ensures ToggleTheme(ToggleTheme(t)) == t
    ensures ToggleTheme(t) != t
  {
  }

  /** `classList.remove(...)`: drop every token in `drop`, keep the order of
      the others. A `DOMTokenList` is an ordered set, so the body's class list
      is a sequence of tokens without repeats, and it stays one. */
  function RemoveClasses(classes: seq<string>, drop: set<string>): (r: seq<string>)
    ensures |r| <= |classes|
    ensures forall c :: c in r <==> c in classes && c !in drop
    ensures NoRepeats(classes) ==> NoRepeats(r)
    decreases |classes|
  {
    if |classes| == 0 then []
    else
      var rest := RemoveClasses(classes[1..], drop);
      assert forall c :: c in classes <==> c == classes[0] || c in classes[1..];
      if classes[0] in drop then rest
      else
        assert NoRepeats(classes) ==> classes[0] !in classes[1..];
        [classes[0]] + rest
  }

  /** `classList.add(c)`: append a token that is not there yet. */
  function AddClass(classes: seq<string>, c: string): (r: seq<string>)
    ensures c in r
    ensures forall d :: d != c ==> (d in r <==> d in classes)
    ensures NoRepeats(classes) ==> NoRepeats(r)
  {
    if c in classes then classes else classes + [c]
  }

  /** The theme effect's DOM update: remove both theme classes, then add the
      current theme. Whatever the theme (a stored value is not checked
      against the two themes), neither theme class other than it survives. */
  function ApplyTheme(classes: seq<string>, theme: string): (r: seq<string>)
    ensures theme in r
    ensures theme != "light" ==> "light" !in r
    ensures theme != "dark" ==> "dark" !in r
    ensures forall c :: c != theme && c != "light" && c != "dark" ==> (c in r <==> c in classes)
    ensures NoRepeats(classes) ==> NoRepeats(r)
  {
    AddClass(RemoveClasses(classes, {"light", "dark"}), theme)
  }

  lemma {:induction false} RemoveClassesTwice(xs: seq<string>, d: set<string>, e: set<string>)
    ensures RemoveClasses(RemoveClasses(xs, d), e) == RemoveClasses(xs, d + e)
    decreases |xs|
  {
    if |xs| > 0 {
      RemoveClassesTwice(xs[1..], d, e);
      if xs[0] !in d {
        assert ([xs[0]] + RemoveClasses(xs[1..], d))[1..] == RemoveClasses(xs[1..], d);
      }
    }
  }

  lemma {:induction false} RemoveClassesAppend(xs: seq<string>, c: string, e: set<string>)
    requires c in e
    ensures RemoveClasses(xs + [c], e) == RemoveClasses(xs, e)
    decreases |xs|
  {
    if |xs| == 0 {
      assert xs + [c] == [c];
    } else {
      assert (xs + [c])[1..] == xs[1..] + [c];
      RemoveClassesAppend(xs[1..], c, e);
    }
  }

  /** Applying a theme keeps every unrelated body class, in its order: with
      the theme classes and the new theme filtered out, the token list is
      what it was before. */
  lemma ApplyThemeKeepsOtherClasses(classes: seq<string>, theme: string)
    requires NoRepeats(classes)
    ensures NoRepeats(ApplyTheme(classes, theme))
    ensures RemoveClasses(ApplyTheme(classes, theme), {"light", "dark", theme})
         == RemoveClasses(classes, {"light", "dark", theme})
  {
    var d := {"light", "dark"};
    var e := {"light", "dark", theme};
    var kept := RemoveClasses(classes, d);
    if theme !in kept {
      RemoveClassesAppend(kept, theme, e);
    }
    RemoveClassesTwice(classes, d, e);
    assert d + e == e;
  }

  /** The effect also writes the theme back to storage, and a reload reads it
      again: every theme the app can hold survives a reload. */
  lemma ThemeSurvivesReload(stored: Option<string>)
    ensures var t := InitialTheme(stored);
            InitialTheme(Some(t)) == t
            && InitialTheme(Some(ToggleTheme(t))) == ToggleTheme(t)
  {
  }

  datatype Session = Session(userId: string)

  datatype Screen = LoginScreen | ChatLayoutScreen(key: string, theme: string)

  /** No session: only the login screen. A session: the chat layout, keyed by
      the user id so that another user gets a fresh layout. */
  function View(session: Option<Session>, theme: string): (v: Screen)
    ensures v.LoginScreen? <==> session.None?
    ensures session.Some? ==> v.key == session.value.userId && v.theme == theme
  {
    match session
    case None => LoginScreen
    case Some(sn) => ChatLayoutScreen(sn.userId, theme)
  }
}

=== FILE: chat_layout.dfy ===
/** The chat list beside the conversation: fetch-and-replace on mount,
    create-then-append-and-select, and click-to-select. The shown code has no
    ordering on the query, no prepend and no client-side delete. */
module ChatLayout {
  import opened Wrappers

  /** A row of the `chats` table as selected (`id, title, created_at`). */
  datatype Chat = Chat(id: string, title: string, createdAt: string)

  /** The component's state. `creating` holds, for every click of "+ New
      Chat" whose insert has not resolved yet, the chat list that click's
      handler captured from its render, oldest click first. */
  datatype State = State(
    chats: seq<Chat>,
    selectedChatId: Option<string>,
    loading: bool,
    creating: seq<seq<Chat>>)

  datatype Event =
    | ChatsFetched(fetched: Result<seq<Chat>>)      // the mount-time `fetchChats` resolves
    | CreateClicked                                 // a click on "+ New Chat"
    | ChatCreated(call: nat, created: Result<Chat>) // the `call`-th pending insert resolves
    | ChatClicked(index: nat)                       // a click on the index-th list entry

  /** The right-hand pane. */
  datatype Pane = Placeholder | ChatPane(chatId: string)

  datatype Screen =
    | LoadingChats
    | Layout(list: seq<Chat>, highlighted: Option<string>, pane: Pane)

  /** The initial hook values: no chats, nothing selected, loading, and no
      insert pending. */
  function Init(): (s: State)
    ensures s.chats == [] && s.selectedChatId.None? && s.loading && s.creating == []
  {
    State([], None, true, [])
  }

  /** `fetchChats`: the fetched rows replace the list wholesale; on error the
      old list stays; loading ends either way. The selection is untouched. */
  function OnChatsFetched(s: State, fetched: Result<seq<Chat>>): (s': State)
    ensures !s'.loading && s'.selectedChatId == s.selectedChatId && s'.creating == s.creating
    ensures fetched.Ok? ==> s'.chats == fetched.value
    ensures fetched.Err? ==> s'.chats == s.chats
  {
    s.(chats := fetched.GetOr(s.chats), loading := false)
  }

  /** A click on "+ New Chat" starts `handleCreateChat`, whose closure holds
      the `chats` of the render that was clicked. The button is never
      disabled, so clicks can overlap; it exists only outside the loading
      view. */
  function OnCreateClicked(s: State): (s': State)
    ensures s.loading ==> s' == s
    ensures !s.loading ==>
      s'.creating == s.creating + [s.chats]
      && s'.chats == s.chats && s'.selectedChatId == s.selectedChatId && !s'.loading
  {
    if s.loading then s else s.(creating := s.creating + [s.chats])
  }

  /** The insert of the `call`-th pending create resolves. On success the list
      becomes the list THAT click captured with the new row at its end, and
      the new chat becomes selected; whatever the list gained since the click
      is overwritten. On error only the bookkeeping changes. A `call` that
      does not name a pending create cannot occur and changes nothing. */
  function OnChatCreated(s: State, call: nat, created: Result<Chat>): (s': State)
    ensures call >= |s.creating| ==> s' == s
    ensures call < |s.creating| ==>
      s'.creating == RemoveAt(s.creating, call) && s'.loading == s.loading
    ensures call < |s.creating| && created.Err? ==>
      s'.chats == s.chats && s'.selectedChatId == s.selectedChatId
    ensures call < |s.creating| && created.Ok? ==>
      && |s'.chats| == |s.creating[call]| + 1
      && s'.chats[..|s.creating[call]|] == s.creating[call]
      && s'.chats[|s.creating[call]|] == created.value
      && s'.selectedChatId == Some(created.value.id)
  {
    if call >= |s.creating| then s
    else
      match created
      case Err(_) => s.(creating := RemoveAt(s.creating, call))
      case Ok(chat) =>
        s.(chats := s.creating[call] + [chat],
           selectedChatId := Some(chat.id),
           creating := RemoveAt(s.creating, call))
  }

  /** A click on a list entry selects that entry's chat id. The list exists
      only outside the loading view; an index past the list cannot be clicked. */
  function OnChatClicked(s: State, index: nat): (s': State)
    ensures !s.loading && index < |s.chats| ==>
      s' == s.(selectedChatId := Some(s.chats[index].id))
    ensures s.loading || index >= |s.chats| ==> s' == s
  {
    if s.loading || index >= |s.chats| then s
    else s.(selectedChatId := Some(s.chats[index].id))
  }

  function Step(s: State, e: Event): State
  {
    match e
    case ChatsFetched(r) => OnChatsFetched(s, r)
    case CreateClicked => OnCreateClicked(s)
    case ChatCreated(k, r) => OnChatCreated(s, k, r)
    case ChatClicked(i) => OnChatClicked(s, i)
  }

  /** The render. While loading only the loading view is shown; afterwards the
      conversation pane is shown for a truthy selected id and the placeholder
      otherwise (an empty-string id is falsy in JavaScript). */
  function View(s: State): (v: Screen)
    ensures v.LoadingChats? <==> s.loading
    ensures v.Layout? ==> v.list == s.chats && v.highlighted == s.selectedChatId
    ensures v.Layout? ==>
      (v.pane.ChatPane? <==> s.selectedChatId.Some? && s.selectedChatId.value != "")
    ensures v.Layout? && v.pane.ChatPane? ==> Some(v.pane.chatId) == s.selectedChatId
  {
    if s.loading then LoadingChats
    else
      match s.selectedChatId
      case Some(id) => if id != "" then Layout(s.chats, s.selectedChatId, ChatPane(id))
                       else Layout(s.chats, s.selectedChatId, Placeholder)
      case None => Layout(s.chats, s.selectedChatId, Placeholder)
  }

  /** Loading never comes back once the first fetch has resolved. */
  lemma LoadingNeverReturns(s: State, e: Event)
    requires !s.loading
    ensures !Step(s, e).loading
  {
  }

  function Run(s: State, events: seq<Event>): State
    decreases |events|
  {
    if |events| == 0 then s else Run(Step(s, events[0]), events[1..])
  }

  /** No create is pending while the loading view is shown: the button that
      starts one is rendered only after loading has ended. */
  predicate Inv(s: State)
  {
    s.loading ==> s.creating == []
  }

  lemma {:induction false} RunPreservesInv(s: State, events: seq<Event>)
    requires Inv(s)
    ensures Inv(Run(s, events))
    decreases |events|
  {
    if |events| > 0 {
      RunPreservesInv(Step(s, events[0]), events[1..]);
    }
  }

  /** A create with no other event in between makes the pane show the new
      chat at the end of the list, provided its id is a non-empty string. */
  lemma CreateShowsNewChat(s: State, chat: Chat)
    requires !s.loading && chat.id != ""
    ensures var s1 := Step(s, CreateClicked);
            var s2 := Step(s1, ChatCreated(|s.creating|, Ok(chat)));
            View(s2) == Layout(s.chats + [chat], Some(chat.id), ChatPane(chat.id))
            && s2.creating == s.creating
  {
    var s1 := Step(s, CreateClicked);
    assert RemoveAt(s1.creating, |s.creating|) == s.creating;
  }

  /** Two overlapping creates: both inserts succeed, in click order, but each
      handler appends to the list captured at its click, so the second
      overwrites the first and the first chat disappears from the list
      (while it exists in the database). */
  lemma OverlappingCreatesLoseFirst(s: State, d1: Chat, d2: Chat)
    requires !s.loading && s.creating == []
    requires d1 !in s.chats && d1 != d2
    ensures var s2 := Step(Step(s, CreateClicked), CreateClicked);
            var s3 := Step(s2, ChatCreated(0, Ok(d1)));
            var s4 := Step(s3, ChatCreated(0, Ok(d2)));
            s3.chats == s.chats + [d1]
            && s4.chats == s.chats + [d2]
            && d1 !in s4.chats
            && s4.selectedChatId == Some(d2.id)
            && s4.creating == []
  {
  }

  /** After loading has ended, a failed refresh or create leaves the rendered
      screen unchanged. */
  lemma FailuresKeepSelection(s: State, call: nat, msg: string)
    requires !s.loading
    ensures View(Step(s, ChatsFetched(Err(msg)))) == View(s)
    ensures View(Step(s, ChatCreated(call, Err(msg)))) == View(s)
  {
  }
}

=== FILE: chat_types.dfy ===
/** Roles of a chat message. The database and every component use the closed
    two-value enumeration `'user' | 'bot'`. */
module ChatTypes {

  datatype Sender = User | Bot

  /** The text the database stores for a sender. */
  function SenderName(s: Sender): string
  {
    match s
    case User => "user"
    case Bot => "bot"
  }
}

=== FILE: clarification.dfy ===
/** The clarification thread, a side conversation about one bot message. Two
    components implement it, the draggable modal and the drawer; their submit
    logic is identical and they differ only in what opening the panel resets.
    The `clarify-message` invocation is awaited directly, so the thread always
    gains the user's question and then exactly one bot entry. */
module Clarification {
  import opened Wrappers
  import opened ChatTypes
  import opened JsText

  datatype Variant = Modal | Drawer

  /** An entry of the thread; `id` is the `Date.now()` value at creation. */
  datatype Entry = Entry(id: int, sender: Sender, content: string)

  /** `isOpen` is the prop the parent passes; the rest is component state.
      `isLoading` is up exactly while the one awaited invocation is pending. */
  datatype State = State(isOpen: bool, messages: seq<Entry>, input: string, isLoading: bool)

  datatype Event =
    | OpenChanged(isOpen: bool)                 // the parent changes the `isOpen` prop
    | Edit(text: string)                        // typing into the question box
    | Submit(now: int)                          // the form is submitted at time `now`
    | ReplyDone(now: int, reply: Result<string>) // the awaited invocation settles at `now`

  /** The render: nothing when closed, otherwise the thread and a "..."
      indicator while the reply is awaited. */
  datatype Panel = Panel(shown: seq<Entry>, typingIndicator: bool)

  /** The bot entry appended when the invocation fails. */
  const Fallback: string := "Sorry, I had trouble with that question."

  /** The initial hook values; the reset effect also runs on mount, but on an
      empty thread it changes nothing. */
  function Mount(isOpen: bool): (s: State)
    ensures s.isOpen == isOpen && s.messages == [] && s.input == "" && !s.isLoading
  {
    State(isOpen, [], "", false)
  }

  /** The reset effect, run when `isOpen` changes: opening empties the thread,
      and in the modal also the question box. Closing only hides the panel. */
  function OnOpenChanged(v: Variant, s: State, isOpen: bool): (s': State)
    ensures s'.isOpen == isOpen && s'.isLoading == s.isLoading
    ensures isOpen && !s.isOpen ==> s'.messages == []
    ensures !(isOpen && !s.isOpen) ==> s'.messages == s.messages && s'.input == s.input
    ensures isOpen && !s.isOpen && v == Modal ==> s'.input == ""
    ensures v == Drawer ==> s'.input == s.input
  {
    if isOpen == s.isOpen then s
    else if !isOpen then s.(isOpen := false)
    else match v
      case Modal => s.(isOpen := true, messages := [], input := "")
      case Drawer => s.(isOpen := true, messages := [])
  }

  /** The question box exists only while open and is disabled while loading. */
  function OnEdit(s: State, text: string): (s': State)
    ensures s.isOpen && !s.isLoading ==> s' == s.(input := text)
    ensures !s.isOpen || s.isLoading ==> s' == s
  {
    if s.isOpen && !s.isLoading then s.(input := text) else s
  }

  /** `handleSubmit` up to its await: the blank-or-loading guard, then the
      input is cleared, loading is raised and the raw question is appended as
      a user entry. */
  function HandleSubmit(s: State, now: int): (s': State)
    ensures AllWhitespace(s.input) || s.isLoading ==> s' == s
    ensures !AllWhitespace(s.input) && !s.isLoading ==>
      && s'.messages == s.messages + [Entry(now, User, s.input)]
      && s'.input == "" && s'.isLoading && s'.isOpen == s.isOpen
  {
    BlankIffAllWhitespace(s.input);
    if IsBlank(s.input) || s.isLoading then s
    else s.(input := "", isLoading := true, messages := s.messages + [Entry(now, User, s.input)])
  }

  /** The content of the bot entry: the reply text on success, the fixed
      fallback on any failure. */
  function BotContent(reply: Result<string>): (c: string)
    ensures reply.Ok? ==> c == reply.value
    ensures reply.Err? ==> c == Fallback
  {
    reply.GetOr(Fallback)
  }

  /** The awaited invocation settles: exactly one bot entry is appended to
      the thread as it is now, and loading drops in both branches. Without a
      pending invocation nothing can settle. */
  function OnReplyDone(s: State, now: int, reply: Result<string>): (s': State)
    ensures !s.isLoading ==> s' == s
    ensures s.isLoading ==>
      && |s'.messages| == |s.messages| + 1
      && s'.messages[..|s.messages|] == s.messages
      && s'.messages[|s.messages|].sender == Bot
      && s'.messages[|s.messages|].content == (if reply.Ok? then reply.value else Fallback)
      && !s'.isLoading && s'.input == s.input && s'.isOpen == s.isOpen
  {
    if !s.isLoading then s
    else s.(messages := s.messages + [Entry(now + 1, Bot, BotContent(reply))], isLoading := false)
  }

  /** Dispatch one event; the form exists only while the panel is open. */
  function Step(v: Variant, s: State, e: Event): State
  {
    match e
    case OpenChanged(b) => OnOpenChanged(v, s, b)
    case Edit(text) => OnEdit(s, text)
    case Submit(now) => if s.isOpen then HandleSubmit(s, now) else s
    case ReplyDone(now, r) => OnReplyDone(s, now, r)
  }

  /** The render guard: a closed panel renders nothing. */
  function Render(s: State): (p: Option<Panel>)
    ensures p.None? <==> !s.isOpen
    ensures p.Some? ==> p.value.shown == s.messages && p.value.typingIndicator == s.isLoading
  {
    if !s.isOpen then None else Some(Panel(s.messages, s.isLoading))
  }

  /** A submit while the previous question is still awaited is a no-op. */
  lemma SubmitWhileLoadingIsNoOp(v: Variant, s: State, now: int)
    requires s.isLoading
    ensures Step(v, s, Submit(now)) == s
  {
  }

  /** One exchange, in either variant: an accepted submit followed by its
      reply grows the thread by exactly two entries, the raw question as a
      user entry and then one bot entry, leaves the earlier entries alone,
      and ends with loading down and the box empty. */
  lemma ExchangeAppendsTwo(v: Variant, s: State, t0: int, t1: int, reply: Result<string>)
    requires s.isOpen && !s.isLoading && !AllWhitespace(s.input)
    ensures var s2 := Step(v, Step(v, s, Submit(t0)), ReplyDone(t1, reply));
            && s2.messages == s.messages + [Entry(t0, User, s.input), Entry(t1 + 1, Bot, BotContent(reply))]
            && !s2.isLoading && s2.input == ""
  {
    var s1 := Step(v, s, Submit(t0));
    assert s1.messages == s.messages + [Entry(t0, User, s.input)];
  }

  /** What is typed into an open, idle panel is exactly the question a submit
      asks: the user entry holds the typed text, untrimmed, and a blank text
      asks nothing. */
  lemma EditThenSubmitAsksTyped(v: Variant, s: State, text: string, now: int)
    requires s.isOpen && !s.isLoading
    ensures var s2 := Step(v, Step(v, s, Edit(text)), Submit(now));
            (AllWhitespace(text) ==> s2 == s.(input := text))
            && (!AllWhitespace(text) ==>
                  s2.messages == s.messages + [Entry(now, User, text)] && s2.isLoading)
  {
  }

  /** Re-opening the panel: the modal starts from an empty thread and an empty
      box, the drawer from an empty thread with the box as it was left. */
  lemma ReopenResets(s: State)
    requires !s.isOpen
    ensures Step(Modal, s, OpenChanged(true)).messages == []
    ensures Step(Modal, s, OpenChanged(true)).input == ""
    ensures Step(Drawer, s, OpenChanged(true)).messages == []
    ensures Step(Drawer, s, OpenChanged(true)).input == s.input
  {
  }

  /** A reply that settles after the panel was closed and re-opened lands in
      the fresh thread, because the append uses the state at settle time. */
  lemma ReplyAfterReopenLandsInFreshThread(v: Variant, s: State, t1: int, reply: Result<string>)
    requires s.isOpen && s.isLoading
    ensures var s1 := Step(v, Step(v, s, OpenChanged(false)), OpenChanged(true));
            Step(v, s1, ReplyDone(t1, reply)).messages == [Entry(t1 + 1, Bot, BotContent(reply))]
  {
  }
}

=== FILE: js_text.dfy ===
/** The pieces of JavaScript string semantics the components rely on:
    `String.prototype.trim` (used by every "is the input blank?" guard), the
    truthiness of a string that may be missing, and `Array.prototype.join` /
    `String.prototype.split` on the newline separator. */
module JsText {
  import opened Wrappers

  /** The characters `trim` removes: the WhiteSpace and LineTerminator code
      points of ECMA-262 (sections 12.2 and 12.3), that is TAB, VT, FF, the
      byte order mark, every space separator of Unicode category Zs, LF, CR,
      LINE SEPARATOR and PARAGRAPH SEPARATOR. */
  predicate IsJsWhitespace(c: char)
  {
    || c == '\t' || c == '\U{000B}' || c == '\U{000C}' || c == '\U{FEFF}'
    || c == ' ' || c == '\U{00A0}' || c == '\U{1680}'
    || ('\U{2000}' <= c <= '\U{200A}')
    || c == '\U{202F}' || c == '\U{205F}' || c == '\U{3000}'
    || c == '\n' || c == '\r' || c == '\U{2028}' || c == '\U{2029}'
  }

  /** Every character of `s` is whitespace (vacuously true of ""). */
  predicate AllWhitespace(s: string)
  {
    forall i :: 0 <= i < |s| ==> IsJsWhitespace(s[i])
  }

  /** `trimStart`: drops the leading whitespace, keeps the rest verbatim. */
  function TrimStart(s: string): (r: string)
    ensures |r| <= |s| && r == s[|s| - |r|..]
    ensures AllWhitespace(s[..|s| - |r|])
    ensures |r| > 0 ==> !IsJsWhitespace(r[0])
    decreases |s|
  {
    if |s| > 0 && IsJsWhitespace(s[0]) then
      var r := TrimStart(s[1..]);
      assert s[..|s| - |r|] == [s[0]] + s[1..][..|s[1..]| - |r|];
      r
    else s
  }

  /** `trimEnd`: drops the trailing whitespace, keeps the rest verbatim. */
  function TrimEnd(s: string): (r: string)
    ensures |r| <= |s| && r == s[..|r|]
    ensures AllWhitespace(s[|r|..])
    ensures |r| > 0 ==> !IsJsWhitespace(r[|r| - 1])
    decreases |s|
  {
    if |s| > 0 && IsJsWhitespace(s[|s| - 1]) then
      var r := TrimEnd(s[..|s| - 1]);
      assert s[|r|..] == s[..|s| - 1][|r|..] + [s[|s| - 1]];
      r
    else s
  }

  /** `s.trim()`. */
  function Trim(s: string): string
  {
    TrimEnd(TrimStart(s))
  }

  /** `!s.trim()`: the trimmed string is the falsy empty string. */
  predicate IsBlank(s: string)
  {
    Trim(s) == ""
  }

  /** The blank guard `!s.trim()` holds exactly when every character of `s`
      is whitespace, so a guarded input always has a visible character. */
  lemma BlankIffAllWhitespace(s: string)
    ensures IsBlank(s) <==> AllWhitespace(s)
  {
    var t := TrimStart(s);
    if !AllWhitespace(s) {
      var i :| 0 <= i < |s| && !IsJsWhitespace(s[i]);
      assert t[i - (|s| - |t|)] == s[i];
    }
  }

  /** JavaScript truthiness of a string field that may be missing:
      `undefined` and "" are falsy, every other string is truthy. */
  predicate Truthy(o: Option<string>)
  {
    o.Some? && o.value != ""
  }

  /** No line feed in `s`. */
  predicate NoNewline(s: string)
  {
    forall i :: 0 <= i < |s| ==> s[i] != '\n'
  }

  /** `lines.join('\n')`: "" for no lines, the line itself for one. */
  function JoinLines(lines: seq<string>): string
    decreases |lines|
  {
    if |lines| == 0 then ""
    else if |lines| == 1 then lines[0]
    else lines[0] + "\n" + JoinLines(lines[1..])
  }

  /** `s.split('\n')`: the pieces between line feeds; always at least one
      piece, and "" splits into [""]. */
  function SplitLines(s: string): (r: seq<string>)
    ensures |r| >= 1
    decreases |s|
  {
    if |s| == 0 then [""]
    else
      var rest := SplitLines(s[1..]);
      if s[0] == '\n' then [""] + rest
      else [[s[0]] + rest[0]] + rest[1..]
  }

  /** Number of line feeds in `s`. */
  function CountNewlines(s: string): nat
    decreases |s|
  {
    if |s| == 0 then 0
    else (if s[0] == '\n' then 1 else 0) + CountNewlines(s[1..])
  }

  lemma {:induction false} CountNewlinesAppend(a: string, b: string)
    ensures CountNewlines(a + b) == CountNewlines(a) + CountNewlines(b)
    decreases |a|
  {
    if |a| == 0 {
      assert a + b == b;
    } else {
      assert (a + b)[1..] == a[1..] + b;
      CountNewlinesAppend(a[1..], b);
    }
  }

  lemma {:induction false} NoNewlineCountsZero(s: string)
    requires NoNewline(s)
    ensures CountNewlines(s) == 0
    decreases |s|
  {
    if |s| > 0 {
      NoNewlineCountsZero(s[1..]);
    }
  }

  /** A line without a line feed splits into itself. */
  lemma {:induction false} SplitSingleLine(a: string)
    requires NoNewline(a)
    ensures SplitLines(a) == [a]
    decreases |a|
  {
    if |a| > 0 {
      SplitSingleLine(a[1..]);
      assert [a[0]] + a[1..] == a;
    }
  }

  /** Splitting `a + "\n" + b` cuts at the first line feed, which is the one
      after `a` when `a` has none of its own. */
  lemma {:induction false} SplitAtFirstNewline(a: string, b: string)
    requires NoNewline(a)
    ensures SplitLines(a + "\n" + b) == [a] + SplitLines(b)
    decreases |a|
  {
    if |a| == 0 {
      assert a + "\n" + b == "\n" + b;
      assert ("\n" + b)[1..] == b;
    } else {
      var s := a + "\n" + b;
      assert s[0] == a[0];
      assert s[1..] == a[1..] + "\n" + b;
      SplitAtFirstNewline(a[1..], b);
      assert [a[0]] + a[1..] == a;
    }
  }

  /** Splitting inverts joining, for at least one line and lines that hold
      no line feed themselves. */
  lemma {:induction false} SplitJoinRoundTrip(lines: seq<string>)
    requires |lines| >= 1
    requires forall k :: 0 <= k < |lines| ==> NoNewline(lines[k])
    ensures SplitLines(JoinLines(lines)) == lines
    decreases |lines|
  {
    if |lines| == 1 {
      SplitSingleLine(lines[0]);
    } else {
      SplitJoinRoundTrip(lines[1..]);
      SplitAtFirstNewline(lines[0], JoinLines(lines[1..]));
      assert [lines[0]] + lines[1..] == lines;
    }
  }

  /** Joining n >= 1 lines that hold no line feed inserts exactly n - 1
      separators. */
  lemma {:induction false} JoinLinesSeparatorCount(lines: seq<string>)
    requires |lines| >= 1
    requires forall k :: 0 <= k < |lines| ==> NoNewline(lines[k])
    ensures CountNewlines(JoinLines(lines)) == |lines| - 1
    decreases |lines|
  {
    NoNewlineCountsZero(lines[0]);
    if |lines| > 1 {
      JoinLinesSeparatorCount(lines[1..]);
      CountNewlinesAppend(lines[0], "\n");
      CountNewlinesAppend(lines[0] + "\n", JoinLines(lines[1..]));
    }
  }
}

=== FILE: message_view.dfy ===
/** The conversation view of one chat: the message list, the text box, the
    loading flag and the "bot is typing" flag, driven by discrete events.
    Each remote call (the initial message fetch, the `send-message`
    invocation, each poll of the message table) is an event carrying its
    outcome; the interval timer becomes one `PollTick` event per firing. */
module MessageView {
  import opened Wrappers
  import opened ChatTypes
  import opened JsText

  /** A row of the `messages` table, or an optimistic local copy whose `id`
      is a provisional client-side identifier. */
  datatype Message = Message(id: string, content: string, sender: Sender, createdAt: string)

  /** The component's state. `inFlight` holds, for every `handleSubmit` call
      whose `send-message` invocation has not resolved yet, the message list
      that call captured before its optimistic append (its rollback target),
      oldest call first. */
  datatype State = State(
    chatId: string,
    messages: seq<Message>,
    input: string,
    loading: bool,
    botIsReplying: bool,
    inFlight: seq<seq<Message>>)

  datatype Event =
    | ChatChanged(newChatId: string)          // the `chatId` prop changes
    | FetchDone(fetched: Result<seq<Message>>) // the load effect's query resolves
    | Edit(text: string)                       // the user types into the text box
    | Submit(tempId: string, now: string)      // the form is submitted
    | SendDone(call: nat, ok: bool)            // the `call`-th pending invocation resolves
    | PollTick(polled: Result<seq<Message>>)   // one firing of the reply poll

  /** What the component renders. */
  datatype Screen =
    | LoadingMessages
    | Conversation(shown: seq<Message>, typingIndicator: bool, inputDisabled: bool)

  /** The state after mounting for `chatId`: the initial hook values, with the
      load effect's resets applied and its fetch started. */
  function Mount(chatId: string): (s: State)
    ensures s.chatId == chatId && s.messages == [] && s.input == ""
    ensures s.loading && !s.botIsReplying && s.inFlight == []
  {
    State(chatId, [], "", true, false, [])
  }

  /** The load effect, re-run only when the chat id actually changes: it
      empties the list, shows the loading view and stops the typing flag.
      The text box and the sends still in flight are not touched. */
  function OnChatChanged(s: State, newChatId: string): (s': State)
    ensures newChatId == s.chatId ==> s' == s
    ensures newChatId != s.chatId ==>
      && s'.chatId == newChatId && s'.messages == [] && s'.loading && !s'.botIsReplying
      && s'.input == s.input && s'.inFlight == s.inFlight
  {
    if newChatId == s.chatId then s
    else s.(chatId := newChatId, messages := [], loading := true, botIsReplying := false)
  }

  /** The load effect's fetch resolves: the fetched rows replace the list on
      success, the list is kept on error, and loading ends either way. */
  function OnFetchDone(s: State, fetched: Result<seq<Message>>): (s': State)
    ensures !s'.loading
    ensures fetched.Ok? ==> s'.messages == fetched.value
    ensures fetched.Err? ==> s'.messages == s.messages
    ensures s'.botIsReplying == s.botIsReplying && s'.input == s.input
    ensures s'.chatId == s.chatId && s'.inFlight == s.inFlight
  {
    s.(messages := fetched.GetOr(s.messages), loading := false)
  }

  /** Typing: the text box is rendered only outside the loading view and is
      disabled while the bot is replying. */
  function OnEdit(s: State, text: string): (s': State)
    ensures s.loading || s.botIsReplying ==> s' == s
    ensures !s.loading && !s.botIsReplying ==> s' == s.(input := text)
  {
    if s.loading || s.botIsReplying then s else s.(input := text)
  }

  /** The guard of `handleSubmit`: a submit goes ahead only for an input with
      a non-whitespace character while no reply is awaited. */
  predicate SubmitAccepted(s: State)
  {
    !IsBlank(s.input) && !s.botIsReplying
  }

  /** `handleSubmit` up to its first suspension: capture the current list,
      append the optimistic user message holding the raw input, clear the
      input, raise the typing flag and start the `send-message` call. */
  function HandleSubmit(s: State, tempId: string, now: string): (s': State)
    ensures AllWhitespace(s.input) || s.botIsReplying ==> s' == s
    ensures !AllWhitespace(s.input) && !s.botIsReplying ==>
      && |s'.messages| == |s.messages| + 1
      && s'.messages[..|s.messages|] == s.messages
      && s'.messages[|s.messages|] == Message(tempId, s.input, User, now)
      && s'.input == "" && s'.botIsReplying
      && s'.inFlight == s.inFlight + [s.messages]
      && s'.loading == s.loading && s'.chatId == s.chatId
  {
    BlankIffAllWhitespace(s.input);
    if !SubmitAccepted(s) then s
    else
      s.(messages := s.messages + [Message(tempId, s.input, User, now)],
         input := "",
         botIsReplying := true,
         inFlight := s.inFlight + [s.messages])
  }

  /** The `call`-th pending `send-message` invocation resolves. On success
      nothing changes but the bookkeeping (polling takes over). On failure the
      list is set back to the snapshot that call captured and the typing flag
      drops; the cleared input is not restored. A `call` that does not name a
      pending invocation cannot occur and changes nothing. */
  function OnSendDone(s: State, call: nat, ok: bool): (s': State)
    ensures call >= |s.inFlight| ==> s' == s
    ensures call < |s.inFlight| ==>
      && s'.inFlight == RemoveAt(s.inFlight, call)
      && s'.input == s.input && s'.loading == s.loading && s'.chatId == s.chatId
    ensures call < |s.inFlight| && ok ==>
      s'.messages == s.messages && s'.botIsReplying == s.botIsReplying
    ensures call < |s.inFlight| && !ok ==>
      s'.messages == s.inFlight[call] && !s'.botIsReplying
  {
    if call >= |s.inFlight| then s
    else if ok then s.(inFlight := RemoveAt(s.inFlight, call))
    else
      s.(messages := s.inFlight[call],
         botIsReplying := false,
         inFlight := RemoveAt(s.inFlight, call))
  }

  /** The acceptance test of `pollForReply`, read as the code writes it: the
      polled list is longer than the CURRENT local list (which already holds
      the optimistic message) and its last row is a bot row. */
  predicate PollAccepts(local: seq<Message>, polled: seq<Message>)
  {
    |polled| > |local| && polled[|polled| - 1].sender == Bot
  }

  /** One firing of the poll. There is no interval unless the typing flag is
      up; an error or a rejected list leaves everything as it was; an accepted
      list replaces the local one wholesale and ends the wait. */
  function OnPollTick(s: State, polled: Result<seq<Message>>): (s': State)
    ensures s' != s ==>
      && s.botIsReplying && polled.Ok?
      && |polled.value| > |s.messages| && polled.value[|polled.value| - 1].sender == Bot
    ensures s.botIsReplying && polled.Ok? && PollAccepts(s.messages, polled.value) ==>
      s' == s.(messages := polled.value, botIsReplying := false)
  {
    if !s.botIsReplying then s
    else match polled
      case Err(_) => s
      case Ok(rows) =>
        if PollAccepts(s.messages, rows) then s.(messages := rows, botIsReplying := false)
        else s
  }

  /** Dispatch one event. The form (and so a submit) exists only outside the
      loading view. */
  function Step(s: State, e: Event): State
  {
    match e
    case ChatChanged(id) => OnChatChanged(s, id)
    case FetchDone(r) => OnFetchDone(s, r)
    case Edit(text) => OnEdit(s, text)
    case Submit(tempId, now) => if s.loading then s else HandleSubmit(s, tempId, now)
    case SendDone(call, ok) => OnSendDone(s, call, ok)
    case PollTick(r) => OnPollTick(s, r)
  }

  /** Replay a sequence of events, oldest first. */
  function Run(s: State, events: seq<Event>): State
    decreases |events|
  {
    if |events| == 0 then s else Run(Step(s, events[0]), events[1..])
  }

  /** The render: the loading view alone while loading, otherwise the list
      with the typing indicator exactly while the bot is replying. */
  function View(s: State): (v: Screen)
    ensures v.LoadingMessages? <==> s.loading
    ensures v.Conversation? ==>
      v.shown == s.messages && v.typingIndicator == s.botIsReplying
      && v.inputDisabled == s.botIsReplying
  {
    if s.loading then LoadingMessages
    else Conversation(s.messages, s.botIsReplying, s.botIsReplying)
  }

  /** Whenever a reply is awaited the conversation (not the loading view) is
      on screen and the text box is empty. */
  predicate Inv(s: State)
  {
    s.botIsReplying ==> !s.loading && s.input == ""
  }

  lemma MountEstablishesInv(chatId: string)
    ensures Inv(Mount(chatId))
  {
  }

  /** Every event keeps the invariant. */
  lemma StepPreservesInv(s: State, e: Event)
    requires Inv(s)
    ensures Inv(Step(s, e))
  {
  }

  /** The invariant holds after any sequence of events from any state that
      satisfies it, in particular from every freshly mounted view. */
  lemma {:induction false} RunPreservesInv(s: State, events: seq<Event>)
    requires Inv(s)
    ensures Inv(Run(s, events))
    decreases |events|
  {
    if |events| > 0 {
      StepPreservesInv(s, events[0]);
      RunPreservesInv(Step(s, events[0]), events[1..]);
    }
  }

  /** Single send in flight per wait: while a reply is awaited a submit is a
      no-op whatever the input holds. */
  lemma SubmitWhileReplyingIsNoOp(s: State, tempId: string, now: string)
    requires s.botIsReplying
    ensures Step(s, Submit(tempId, now)) == s
  {
  }

  /** An accepted submit followed by the failure of its own invocation leaves
      exactly the list from before the submit, no typing flag, an empty text
      box and the same pending invocations as before. */
  lemma SendFailureRollsBack(s: State, tempId: string, now: string)
    requires !s.loading && SubmitAccepted(s)
    ensures var s1 := Step(s, Submit(tempId, now));
            var s2 := Step(s1, SendDone(|s.inFlight|, false));
            && s2.messages == s.messages && !s2.botIsReplying && s2.input == ""
            && s2.inFlight == s.inFlight && s2.chatId == s.chatId && !s2.loading
  {
    BlankIffAllWhitespace(s.input);
    var s1 := Step(s, Submit(tempId, now));
    assert s1.inFlight[..|s.inFlight|] == s.inFlight;
  }

  /** The rollback does not depend on what happened in between: even when a
      poll has already accepted the bot's reply, the failure of the send puts
      back the list captured before the submit, dropping the reply from view. */
  lemma LateSendFailureDiscardsAcceptedReply(s: State, tempId: string, now: string, polled: seq<Message>)
    requires !s.loading && SubmitAccepted(s)
    requires |polled| > |s.messages| + 1 && polled[|polled| - 1].sender == Bot
    ensures var s1 := Step(s, Submit(tempId, now));
            var s2 := Step(s1, PollTick(Ok(polled)));
            var s3 := Step(s2, SendDone(|s.inFlight|, false));
            && s2.messages == polled && !s2.botIsReplying
            && s3.messages == s.messages && !s3.botIsReplying
  {
    BlankIffAllWhitespace(s.input);
  }

  /** After a submit from a list of n0 messages, a polled list of n0 + 1 rows
      ending in a bot row does NOT end the wait: the test compares with the
      local list, which already counts the optimistic message. */
  lemma PollOfOneMoreRowIsIgnored(s: State, tempId: string, now: string, polled: seq<Message>)
    requires !s.loading && SubmitAccepted(s)
    requires |polled| == |s.messages| + 1
    ensures var s1 := Step(s, Submit(tempId, now));
            Step(s1, PollTick(Ok(polled))) == s1
  {
    BlankIffAllWhitespace(s.input);
  }

  /** After a submit from n0 messages, a polled list of n0 + 2 rows ending in
      a bot row (the persisted user message and the reply) ends the wait and
      becomes the list verbatim, superseding the optimistic copy. */
  lemma PollWithReplyEndsWait(s: State, tempId: string, now: string, polled: seq<Message>)
    requires !s.loading && SubmitAccepted(s)
    requires |polled| == |s.messages| + 2 && polled[|polled| - 1].sender == Bot
    ensures var s1 := Step(s, Submit(tempId, now));
            var s2 := Step(s1, PollTick(Ok(polled)));
            s2.messages == polled && !s2.botIsReplying && s2.inFlight == s1.inFlight
  {
    BlankIffAllWhitespace(s.input);
  }

  /** A poll error, or any poll once the typing flag is down, changes nothing. */
  lemma PollErrorOrIdleIsNoOp(s: State, polled: Result<seq<Message>>)
    requires polled.Err? || !s.botIsReplying
    ensures Step(s, PollTick(polled)) == s
  {
  }

  /** Switching to another chat stops the wait, so no later poll can touch
      the list until a new submit raises the typing flag again. */
  lemma ChatChangeCancelsPolling(s: State, other: string, polled: seq<Result<seq<Message>>>)
    requires other != s.chatId
    ensures var s1 := Step(s, ChatChanged(other));
            !s1.botIsReplying && s1.messages == [] && s1.loading
            && forall k :: 0 <= k < |polled| ==> Step(s1, PollTick(polled[k])) == s1
  {
  }

  /** The example conversation: two stored messages, the user sends "Hello";
      a poll returning three rows ending with a user row is ignored, a poll
      returning four rows ending with the bot's "Hi there" ends the wait. */
  lemma ConversationExample(m1: Message, m2: Message, u: Message, other: Message)
    requires other.sender == User
    ensures var s0 := State("c", [m1, m2], "Hello", false, false, []);
            var s1 := Step(s0, Submit("tmp", "t"));
            var s2 := Step(s1, PollTick(Ok([m1, m2, other])));
            var reply := Message("r", "Hi there", Bot, "t2");
            var s3 := Step(s2, PollTick(Ok([m1, m2, u, reply])));
            && |s1.messages| == 3 && s1.messages[2].sender == User && s1.messages[2].content == "Hello"
            && s1.botIsReplying && s2 == s1
            && !s3.botIsReplying && |s3.messages| == 4 && s3.messages[3].content == "Hi there"
  {
    var s0 := State("c", [m1, m2], "Hello", false, false, []);
    assert !IsJsWhitespace(s0.input[0]);
    var s1 := Step(s0, Submit("tmp", "t"));
    assert s1 == State("c", [m1, m2, Message("tmp", "Hello", User, "t")], "", false, true, [[m1, m2]]);
    assert Step(s1, PollTick(Ok([m1, m2, other]))) == s1;
  }
}

=== FILE: onboarding.dfy ===
/** The onboarding tutorial: a step counter over a fixed list of three pages,
    a Next/Finish button and a Skip button. `onClose` is the parent's callback;
    the model reports whether a press asks for it. */
module Onboarding {

  datatype TutorialStep = TutorialStep(title: string, content: string)

  const TutorialSteps: seq<TutorialStep> := [
    TutorialStep("Welcome to Your AI Assistant!",
      "This is a smart chatbot that can help you with a variety of questions. Let's quickly go over the unique features."),
    TutorialStep("Clarification Threads",
      "See the blue (?) icon next to a bot's reply? Click it to open a private thread to ask for more details about that specific message, without cluttering your main conversation!"),
    TutorialStep("You're All Set!",
      "That's it! You can now start a new conversation or explore your existing ones. Enjoy your AI assistant.")
  ]

  /** Index of the last page. */
  const LastStep: nat := |TutorialSteps| - 1

  /** The step after a press, and whether the press called `onClose`. */
  datatype Reaction = Reaction(step: nat, closeRequested: bool)

  /** The initial `useState(0)`. */
  const InitialStep: nat := 0

  /** `handleNext`: advance while below the last page; on the last page ask
      the parent to close and leave the step where it is. */
  function HandleNext(step: nat): (r: Reaction)
    ensures r.closeRequested <==> step >= LastStep
    ensures r.closeRequested ==> r.step == step
    ensures !r.closeRequested ==> r.step == step + 1 && r.step <= LastStep
  {
    if step < |TutorialSteps| - 1 then Reaction(step + 1, false)
    else Reaction(step, true)
  }

  /** Skip asks the parent to close on every page. */
  function Skip(step: nat): (r: Reaction)
    ensures r.closeRequested && r.step == step
  {
    Reaction(step, true)
  }

  /** The label of the forward button. */
  function NextLabel(step: nat): (l: string)
    ensures l == "Finish" <==> step >= LastStep
    ensures l == "Next" || l == "Finish"
  {
    if step < |TutorialSteps| - 1 then "Next" else "Finish"
  }

  /** The page rendered for a step; the lookup needs a step in range. */
  function Page(step: nat): (p: TutorialStep)
    requires step < |TutorialSteps|
    ensures p in TutorialSteps
  {
    TutorialSteps[step]
  }

  /** The step after `presses` presses of Next from `step`. */
  function PressNext(step: nat, presses: nat): nat
    decreases presses
  {
    if presses == 0 then step else PressNext(HandleNext(step).step, presses - 1)
  }

  /** From any valid page, any number of Next presses leaves the step at the
      start plus the presses, capped at the last page, so the page lookup is
      always in range. */
  lemma {:induction false} PressNextFromStart(step: nat, presses: nat)
    requires step <= LastStep
    ensures PressNext(step, presses) == if step + presses <= LastStep then step + presses else LastStep
    ensures PressNext(step, presses) < |TutorialSteps|
    decreases presses
  {
    if presses > 0 {
      PressNextFromStart(HandleNext(step).step, presses - 1);
    }
  }

  /** The walk through the tutorial: Next, Next reaches "Finish" on the last
      page, and the third Next asks to close. */
  lemma TutorialWalk()
    ensures NextLabel(InitialStep) == "Next"
    ensures Page(InitialStep).title == "Welcome to Your AI Assistant!"
    ensures HandleNext(HandleNext(InitialStep).step).step == LastStep
    ensures NextLabel(LastStep) == "Finish"
    ensures HandleNext(LastStep).closeRequested
  {
  }
}

=== FILE: send_message.dfy ===
/** The `send-message` edge function as a decision function. Its inputs are
    the request and the outcomes of the remote calls it makes (the user
    lookup, the insert, the webhook); its output is the response and the
    ordered list of side effects it performed, which makes the partial
    failure visible: the user row is inserted, then the webhook fails. */
module SendMessage {
  import opened Wrappers
  import opened ChatTypes
  import opened JsText

  /** The parsed JSON body; a field is `None` when absent. */
  datatype Body = Body(chatId: Option<string>, message: Option<string>, chatTitle: Option<string>)

  datatype Request = Request(
    httpMethod: string,
    userPresent: bool,          // whether `auth.getUser()` yields a user for the request's token
    body: Result<Body>)         // `req.json()`, which fails on a body that is not JSON

  /** The answer of the workflow webhook: a non-ok status, or an ok status
      whose body parses as JSON (`json`) or does not. */
  datatype WebhookReply = WebhookNotOk | WebhookJson(json: string) | WebhookBadJson(parseError: string)

  datatype Effect =
    | LookUpUser
    | ReadBody
    | InsertMessage(chatId: string, content: string, sender: Sender)
    | PostWebhook(chatId: string, message: string, chatTitle: Option<string>)

  datatype ResponseBody = PlainOk | Json(text: string) | ErrorJson(error: string)

  datatype Response = Response(status: int, body: ResponseBody)

  datatype Outcome = Outcome(response: Response, effects: seq<Effect>)

  const NotAuthenticated: string := "User not authenticated."
  const MissingFields: string := "Missing chat_id or message in the request body."
  const WorkflowFailed: string := "The n8n workflow failed to execute."

  /** Every thrown error becomes a 400 response carrying its message. */
  function Fail(message: string, effects: seq<Effect>): Outcome
  {
    Outcome(Response(400, ErrorJson(message)), effects)
  }

  /** The handler: the CORS preflight first, then the auth check, the body
      check (truthiness, no trimming), the insert, and the webhook. */
  function Handle(req: Request, insert: Result<()>, webhook: WebhookReply): (o: Outcome)
    ensures o.response.status == 200 || o.response.status == 400
    ensures |o.effects| <= 4
    ensures req.httpMethod == "OPTIONS" <==> o.response == Response(200, PlainOk)
  {
    if req.httpMethod == "OPTIONS" then Outcome(Response(200, PlainOk), [])
    else if !req.userPresent then Fail(NotAuthenticated, [LookUpUser])
    else match req.body
      case Err(parseError) => Fail(parseError, [LookUpUser, ReadBody])
      case Ok(b) =>
        if !Truthy(b.chatId) || !Truthy(b.message) then Fail(MissingFields, [LookUpUser, ReadBody])
        else
          var ins := InsertMessage(b.chatId.value, b.message.value, User);
          match insert
          case Err(insertError) => Fail(insertError, [LookUpUser, ReadBody, ins])
          case Ok(_) =>
            var post := PostWebhook(b.chatId.value, b.message.value, b.chatTitle);
            var done := [LookUpUser, ReadBody, ins, post];
            match webhook
            case WebhookNotOk => Fail(WorkflowFailed, done)
            case WebhookBadJson(parseError) => Fail(parseError, done)
            case WebhookJson(json) => Outcome(Response(200, Json(json)), done)
  }

  /** The preflight answers 'ok' without looking at the user, the database or
      the webhook. */
  lemma PreflightHasNoEffects(req: Request, insert: Result<()>, webhook: WebhookReply)
    requires req.httpMethod == "OPTIONS"
    ensures Handle(req, insert, webhook) == Outcome(Response(200, PlainOk), [])
  {
  }

  /** Without a user the answer is 400 and nothing is inserted or posted. */
  lemma NoUserNoWrites(req: Request, insert: Result<()>, webhook: WebhookReply)
    requires req.httpMethod != "OPTIONS" && !req.userPresent
    ensures var o := Handle(req, insert, webhook);
            o.response == Response(400, ErrorJson(NotAuthenticated))
            && forall k :: 0 <= k < |o.effects| ==> !o.effects[k].InsertMessage? && !o.effects[k].PostWebhook?
  {
  }

  /** A missing or empty `chat_id` or `message` is refused with 400 before any
      write; any other pair of strings reaches the insert unchanged. In
      particular a whitespace-only message is inserted: the check does not trim. */
  lemma BodyValidation(req: Request, insert: Result<()>, webhook: WebhookReply)
    requires req.httpMethod != "OPTIONS" && req.userPresent && req.body.Ok?
    ensures var o := Handle(req, insert, webhook);
            var b := req.body.value;
            !Truthy(b.chatId) || !Truthy(b.message) ==>
            o == Outcome(Response(400, ErrorJson(MissingFields)), [LookUpUser, ReadBody])
    ensures var o := Handle(req, insert, webhook);
            var b := req.body.value;
            Truthy(b.chatId) && Truthy(b.message) ==>
            |o.effects| >= 3 && o.effects[2] == InsertMessage(b.chatId.value, b.message.value, User)
  {
  }

  /** A message of one space passes the check and is inserted as it is. */
  lemma BlankMessageIsInserted(chatId: string, insert: Result<()>, webhook: WebhookReply)
    requires chatId != ""
    ensures var req := Request("POST", true, Ok(Body(Some(chatId), Some(" "), None)));
            InsertMessage(chatId, " ", User) in Handle(req, insert, webhook).effects
  {
  }

  /** The insert always precedes the webhook, and a failed insert means the
      webhook is never called. */
  lemma InsertBeforeWebhook(req: Request, insert: Result<()>, webhook: WebhookReply)
    ensures var o := Handle(req, insert, webhook);
            forall k :: 0 <= k < |o.effects| && o.effects[k].PostWebhook? ==>
              k > 0 && o.effects[k - 1].InsertMessage? && insert.Ok?
  {
  }

  /** The partial failure: a webhook answering with a non-ok status yields 400
      although the user row has already been inserted; nothing undoes it. */
  lemma WebhookFailureAfterInsert(req: Request, webhook: WebhookReply)
    requires req.httpMethod != "OPTIONS" && req.userPresent && req.body.Ok?
    requires Truthy(req.body.value.chatId) && Truthy(req.body.value.message)
    requires webhook.WebhookNotOk?
    ensures var o := Handle(req, Ok(()), webhook);
            && o.response == Response(400, ErrorJson(WorkflowFailed))
            && InsertMessage(req.body.value.chatId.value, req.body.value.message.value, User) in o.effects
  {
  }

  /** Success is exactly: a request past every check, a good insert and a
      webhook answering JSON. The body is then that JSON verbatim, and the
      webhook received `chat_id`, `message` and `chat_title` unchanged. */
  lemma SuccessCharacterised(req: Request, insert: Result<()>, webhook: WebhookReply)
    ensures var o := Handle(req, insert, webhook);
            o.response.status == 200 && req.httpMethod != "OPTIONS" <==>
            && req.httpMethod != "OPTIONS" && req.userPresent && req.body.Ok?
            && Truthy(req.body.value.chatId) && Truthy(req.body.value.message)
            && insert.Ok? && webhook.WebhookJson?
    ensures var o := Handle(req, insert, webhook);
            o.response.status == 200 && req.httpMethod != "OPTIONS" ==>
            && o.response.body == Json(webhook.json)
            && o.effects[|o.effects| - 1]
               == PostWebhook(req.body.value.chatId.value, req.body.value.message.value, req.body.value.chatTitle)
  {
  }
}

=== FILE: summarize_chat.dfy ===
/** The `summarize-chat` edge function: validation, the transcript serialiser,
    the check of the webhook address, and the mapping of every failure to
    status 500. The database read, the environment lookup and the webhook
    call are inputs; the function returns the response and the effects it
    performed, in order. */
module SummarizeChat {
  import opened Wrappers
  import opened ChatTypes
  import opened JsText

  /** The parsed JSON body; `chatId` is `None` when absent. */
  datatype Body = Body(chatId: Option<string>)

  datatype Request = Request(httpMethod: string, body: Result<Body>)

  /** A row as selected (`sender, content`), in ascending creation order. */
  datatype Row = Row(sender: Sender, content: string)

  /** The webhook's answer: a non-ok status with its error text, or an ok
      status whose JSON body has an optional `summary` field, or a body that
      does not parse. */
  datatype SummaryReply =
    | SummaryNotOk(errorBody: string)
    | SummaryJson(summary: Option<string>)
    | SummaryBadJson(parseError: string)

  datatype Effect =
    | ReadBody
    | ReadMessages(chatId: string)
    | PostTranscript(url: string, transcript: string)

  /** `SummaryBody(None)` is the JSON `{}` that `{ summary: undefined }`
      serialises to. */
  datatype ResponseBody = PlainOk | SummaryBody(summary: Option<string>) | ErrorJson(details: string)

  datatype Response = Response(status: int, body: ResponseBody)

  datatype Outcome = Outcome(response: Response, effects: seq<Effect>)

  const MissingChatId: string := "Missing chat_id in request body."
  const MissingUrl: string := "N8N_SUMMARY_WEBHOOK_URL is not set."
  const WorkflowFailedPrefix: string := "The n8n summary workflow failed: "

  /** One transcript line: `${sender}: ${content}`. */
  function Line(r: Row): string
  {
    SenderName(r.sender) + ": " + r.content
  }

  /** The transcript: one line per row, in the fetched order, joined by line
      feeds. */
  function Transcript(rows: seq<Row>): (t: string)
    ensures |rows| == 0 ==> t == ""
    ensures |rows| == 1 ==> t == Line(rows[0])
  {
    JoinLines(seq(|rows|, k requires 0 <= k < |rows| => Line(rows[k])))
  }

  /** A row whose content has no line feed gives a line without one. */
  lemma LineHasNoNewline(r: Row)
    requires NoNewline(r.content)
    ensures NoNewline(Line(r))
  {
    var prefix := SenderName(r.sender) + ": ";
    assert Line(r) == prefix + r.content;
    forall i | 0 <= i < |Line(r)|
      ensures Line(r)[i] != '\n'
    {
      if i >= |prefix| {
        assert Line(r)[i] == r.content[i - |prefix|];
      }
    }
  }

  /** Splitting the transcript at its line feeds gives back, in order, one
      `sender: content` line per row, provided no content holds a line feed. */
  lemma TranscriptSplitsIntoLines(rows: seq<Row>)
    requires |rows| >= 1
    requires forall k :: 0 <= k < |rows| ==> NoNewline(rows[k].content)
    ensures var lines := SplitLines(Transcript(rows));
            |lines| == |rows| && forall k :: 0 <= k < |rows| ==> lines[k] == Line(rows[k])
  {
    var lines := seq(|rows|, k requires 0 <= k < |rows| => Line(rows[k]));
    forall k | 0 <= k < |lines|
      ensures NoNewline(lines[k])
    {
      LineHasNoNewline(rows[k]);
    }
    SplitJoinRoundTrip(lines);
  }

  /** For n >= 1 rows whose contents have no line feed the transcript holds
      exactly n - 1 of them, the separators. */
  lemma TranscriptSeparatorCount(rows: seq<Row>)
    requires |rows| >= 1
    requires forall k :: 0 <= k < |rows| ==> NoNewline(rows[k].content)
    ensures CountNewlines(Transcript(rows)) == |rows| - 1
  {
    var lines := seq(|rows|, k requires 0 <= k < |rows| => Line(rows[k]));
    forall k | 0 <= k < |lines|
      ensures NoNewline(lines[k])
    {
      LineHasNoNewline(rows[k]);
    }
    JoinLinesSeparatorCount(lines);
  }

  /** Every thrown error becomes a 500 response carrying its message. */
  function Fail(details: string, effects: seq<Effect>): Outcome
  {
    Outcome(Response(500, ErrorJson(details)), effects)
  }

  /** The handler. The webhook address is looked up only after the read. */
  function Handle(req: Request, read: Result<seq<Row>>, webhookUrl: Option<string>, reply: SummaryReply): (o: Outcome)
    ensures o.response.status == 200 || o.response.status == 500
    ensures req.httpMethod == "OPTIONS" <==> o.response == Response(200, PlainOk)
    ensures req.httpMethod == "OPTIONS" ==> o.effects == []
  {
    if req.httpMethod == "OPTIONS" then Outcome(Response(200, PlainOk), [])
    else match req.body
      case Err(parseError) => Fail(parseError, [ReadBody])
      case Ok(b) =>
        if !Truthy(b.chatId) then Fail(MissingChatId, [ReadBody])
        else
          var rd := ReadMessages(b.chatId.value);
          match read
          case Err(readError) => Fail(readError, [ReadBody, rd])
          case Ok(rows) =>
            var transcript := Transcript(rows);
            if !Truthy(webhookUrl) then Fail(MissingUrl, [ReadBody, rd])
            else
              var done := [ReadBody, rd, PostTranscript(webhookUrl.value, transcript)];
              match reply
              case SummaryNotOk(errorBody) => Fail(WorkflowFailedPrefix + errorBody, done)
              case SummaryBadJson(parseError) => Fail(parseError, done)
              case SummaryJson(summary) => Outcome(Response(200, SummaryBody(summary)), done)
  }

  /** A missing or empty `chat_id` gives 500 before any database read. */
  lemma MissingChatIdBeforeRead(req: Request, read: Result<seq<Row>>, webhookUrl: Option<string>, reply: SummaryReply)
    requires req.httpMethod != "OPTIONS" && req.body.Ok? && !Truthy(req.body.value.chatId)
    ensures Handle(req, read, webhookUrl, reply) == Outcome(Response(500, ErrorJson(MissingChatId)), [ReadBody])
  {
  }

  /** A missing webhook address is noticed only after the read has happened,
      and then the webhook is not called. */
  lemma MissingUrlAfterRead(req: Request, rows: seq<Row>, webhookUrl: Option<string>, reply: SummaryReply)
    requires req.httpMethod != "OPTIONS" && req.body.Ok? && Truthy(req.body.value.chatId)
    requires !Truthy(webhookUrl)
    ensures var o := Handle(req, Ok(rows), webhookUrl, reply);
            && o.response == Response(500, ErrorJson(MissingUrl))
            && o.effects == [ReadBody, ReadMessages(req.body.value.chatId.value)]
  {
  }

  /** Whatever the webhook answers, the body was read, the chat's messages
      were read, and the webhook received the transcript of those rows at the
      configured address; a non-ok answer gives 500 with its error text
      appended to the fixed prefix. */
  lemma WebhookGetsTranscript(req: Request, rows: seq<Row>, url: string, reply: SummaryReply)
    requires req.httpMethod != "OPTIONS" && req.body.Ok? && Truthy(req.body.value.chatId)
    requires url != ""
    ensures Handle(req, Ok(rows), Some(url), reply).effects
         == [ReadBody, ReadMessages(req.body.value.chatId.value), PostTranscript(url, Transcript(rows))]
    ensures reply.SummaryNotOk? ==>
      Handle(req, Ok(rows), Some(url), reply).response
        == Response(500, ErrorJson(WorkflowFailedPrefix + reply.errorBody))
  {
  }

  /** Success is exactly: a valid request, a good read, an address, and a
      JSON answer; only the answer's `summary` field is returned. */
  lemma SuccessCharacterised(req: Request, read: Result<seq<Row>>, webhookUrl: Option<string>, reply: SummaryReply)
    ensures var o := Handle(req, read, webhookUrl, reply);
            o.response.status == 200 && req.httpMethod != "OPTIONS" <==>
            && req.httpMethod != "OPTIONS" && req.body.Ok? && Truthy(req.body.value.chatId)
            && read.Ok? && Truthy(webhookUrl) && reply.SummaryJson?
    ensures var o := Handle(req, read, webhookUrl, reply);
            o.response.status == 200 && req.httpMethod != "OPTIONS" ==>
            o.response.body == SummaryBody(reply.summary)
  {
  }
}

=== FILE: wrappers.dfy ===
/** Outcomes of the remote calls (database queries, function invocations,
    webhook fetches) that the model does not perform itself. Each call becomes
    a value carried by an event or passed to a handler. */
module Wrappers {

  /** The answer of a remote call: its data, or an error with its message. */
  datatype Result<+T> = Ok(value: T) | Err(message: string) {

    /** Returns the data of a successful call, or `default` on error. */
    function GetOr(default: T): (r: T)
      ensures Ok? ==> r == value
      ensures Err? ==> r == default
    {
      match this
      case Ok(v) => v
      case Err(_) => default
    }
  }

  /** The conventional Some/None datatype, for values that may be absent
      (`null`, `undefined`, a missing JSON field). */
  datatype Option<+T> = None | Some(value: T)

  /** No element occurs twice in `xs`. */
  predicate NoRepeats<T(==)>(xs: seq<T>)
  {
    forall j, k :: 0 <= j < k < |xs| ==> xs[j] != xs[k]
  }

  /** Calls still awaited are kept in a sequence, oldest first, each with the
      value it captured when it started. A call that resolves leaves the
      sequence by its position: `xs` without its element at `i`, the others
      in their order. */
  function RemoveAt<T>(xs: seq<T>, i: nat): (r: seq<T>)
    requires i < |xs|
    ensures |r| == |xs| - 1
    ensures forall k :: 0 <= k < i ==> r[k] == xs[k]
    ensures forall k :: i <= k < |r| ==> r[k] == xs[k + 1]
  {
    xs[..i] + xs[i + 1..]
  }
}
